=== FILE: README.md ===
# wordle-solver, modelled in Dafny

A model of the Wordle solver in `src/main.rs`, with proofs about it. The program has four parts:

- **Scorer.** `WordleGame::guess` gives one hint per position. The hint is `Correct` when the letter is in place. It is `Misplaced` when the hidden word contains the letter anywhere else, however many times. Otherwise it is `Invalid`.
- **Constraint store.** `WordleMatcher` holds three things:
  - what is known per position;
  - a 5-letter buffer of letters known to occur, the "required" letters;
  - a 21-letter buffer of letters known not to occur, the "excluded" letters.
  `add` and `remove` push a letter into one of the buffers unless it is already there. `validate` checks a candidate word against the known positions and the excluded letters. It never looks at the required letters.
- **Hint folding.** `update_pattern` applies a four-row table to each position of a round's hints.
- **Solve loop.** `solve` opens with "crane". Each round it scores the guess, folds the hints into the store, and filters the candidate list with `retain`. The first survivor becomes the next guess. The loop stops after at most 14999 rounds.

The model's modules follow that structure:

| module | file | contents |
|---|---|---|
| `Outcomes` | outcomes.dfy | `Option`, `Result`, and the three ways the program panics |
| `Words` | words.dfy | five-letter words, letter sets, the lower-case alphabet |
| `Subsequences` | subsequences.dfy | order-preserving subsequences, which is what `retain` leaves of a list |
| `Scoring` | scoring.dfy | hints, games, the scorer |
| `Buffers` | buffers.dfy | `ArrayString<N>`, modelled as a duplicate-free sequence with a capacity |
| `Matching` | matching.dfy | the constraint store: `new`, `add`, `remove`, `validate` |
| `Solving` | solving.dfy | `update_pattern`, `retain`, one round, the solve loop, and its soundness |
| `ConcreteGames` | concrete_games.dfy | worked hints, and the overflow of the excluded-letter buffer |

Panics are values, not preconditions. A push into a full buffer and an `unwrap` of an empty candidate list both produce `Panicked(cause)`. The model therefore describes every input, including the inputs on which the program aborts.

`Solve` takes the capacity of the excluded buffer as a parameter:

- `ExcludedCapacity` (21) is the capacity as written;
- `AlphabetCapacity` (26) is the corrected capacity (see "## Findings").

Two facts about the code are worth stating plainly:

- "crane" against "slate" scores `[Invalid, Invalid, Correct, Invalid, Correct]` (`ConcreteGames.CraneAgainstSlate`): only `a` and `e` occur in "slate", and both are in place.
- With hints from one hidden word, no letter is ever both required and excluded (`Solving.SoundAcceptsSecret`).

## Model

| member | source | states |
|---|---|---|
| Scoring.Guess | src/main.rs:74-84 | position i is `Correct` iff the guess letter equals the hidden letter there, `Invalid` iff the hidden word lacks the letter entirely, and `Misplaced` iff it is out of place but present somewhere |
| Scoring.SolvedIffHidden | src/main.rs:124-127 | the hints are all `Correct` exactly when the guess is the hidden word |
| Scoring.RepeatedLetterSameHint | src/main.rs:78-82 | two occurrences of one guess letter, both out of place, get the same non-`Correct` hint, so a letter can be reported `Misplaced` more often than it occurs |
| Buffers.Empty | src/main.rs:29 | a fresh buffer is well formed, empty, and has the given capacity |
| Buffers.Insert | src/main.rs:31-40 | a push fails exactly when the letter is absent and the buffer is full; otherwise the letter set grows by exactly that letter, the old contents stay a prefix, the buffer stays duplicate-free within capacity, and inserting a present letter changes nothing |
| Matching.New | src/main.rs:28-30 | the new store knows no position, has empty required and excluded sets, has capacities 5 and the given excluded capacity, and accepts every word |
| Matching.Add | src/main.rs:31-35 | `add` panics exactly when the letter is new and the required buffer is full; otherwise it adds exactly that letter to the required set, leaves positions and excluded letters untouched, and is the identity on a letter already present |
| Matching.Remove | src/main.rs:36-40 | `remove` records an excluded letter; it panics exactly when the letter is new and the excluded buffer is full; otherwise it adds exactly that letter to the excluded set, leaves positions and required letters untouched, and is the identity on a letter already present |
| Matching.Validate | src/main.rs:41-51 | a word is accepted iff, at every position, its letter is not excluded and equals the known letter where one is known; required letters play no part |
| Matching.ValidateFrom | src/main.rs:42-50 | the scan from position i accepts iff every position from i on passes both tests |
| Solving.Transition | src/main.rs:96-110 | one row of the table: `(Known, Correct)` changes nothing; `(Unknown, Correct)` pins the guess letter and requires it; `Misplaced` requires the letter; `Invalid` excludes it; other positions are untouched; a `RequiredFull` panic means a letter was to be required while the required buffer was full, an `ExcludedFull` panic means an `Invalid` letter met a full excluded buffer, and no row panics for want of a candidate |
| Solving.WithinCapacity | src/main.rs:26 | a well-formed store holds as many distinct letters as its buffers' lengths, within their capacities |
| Solving.UpdateFrom | src/main.rs:95-111 | folding positions i..4 that completes leaves a well-formed store with the same capacities |
| Solving.UpdateFromRecords | src/main.rs:95-111 | folding positions i..4 that completes pins exactly the unknown positions hinted `Correct` and leaves every other position alone; the letters hinted `Misplaced` or newly `Correct` join the required set, the letters hinted `Invalid` join the excluded set, nothing else joins either, and the buffers are only appended to |
| Solving.TransitionPanicOverflows | src/main.rs:31-40 | a row that panics with `RequiredFull` (`ExcludedFull`) leaves more required (excluded) letters to record than that buffer holds |
| Solving.TransitionStep | src/main.rs:96-110 | after one row, the letters left to record from the later positions bring the store to the same required and excluded sets |
| Solving.UpdateFromPanics | src/main.rs:95-111 | the fold from position i panics iff the required or excluded letters it would record exceed that buffer's capacity |
| Solving.UpdateFromPanicCause | src/main.rs:95-111 | the fold from position i never panics for want of a candidate; it panics with `RequiredFull` only if the required letters it would record exceed that buffer, and with `ExcludedFull` only if the excluded ones do |
| Solving.UpdatePattern | src/main.rs:93-113 | a completed round of folding leaves a well-formed store with the same capacities |
| Solving.UpdatePatternTable | src/main.rs:93-113 | over a whole round: known positions never change, unknown positions hinted `Correct` become known, other hints leave positions alone, required and excluded letters grow by exactly what the hints give, and the fold panics iff a buffer cannot hold its letters |
| Solving.SoundAcceptsSecret | src/main.rs:41-51 | a store built from true facts about the hidden word accepts that word, and no letter is both required and excluded |
| Solving.HintsTellTruth | src/main.rs:79-81 | the letters a round of the hidden word's hints would require occur in it, and the letters they would exclude do not |
| Solving.UpdateKeepsSlots | src/main.rs:96-99 | folding the hidden word's hints into a store that accepts that word pins every position only to the hidden word's letter there |
| Solving.UpdateKeepsExclusion | src/main.rs:106-109 | folding the hidden word's hints into a store that accepts that word excludes none of its letters |
| Solving.UpdateKeepsAcceptance | src/main.rs:93-113 | a store that accepts the hidden word, whether or not its required letters are true, still accepts it after folding that word's hints for any guess |
| Solving.UpdateKeepsLetters | src/main.rs:100-108 | folding the hidden word's hints leaves only its letters required and only letters it lacks excluded |
| Solving.UpdateKeepsSecret | src/main.rs:93-113 | folding the hidden word's own hints keeps the store true to it, so the store still accepts it |
| Solving.CorrectHintPinsLetter | src/main.rs:98-99 | for a store true to the hidden word and the hints that word gives for a guess, after a `Correct` hint at position i the updated store rejects every word with another letter there |
| Solving.UpdateNeverOverflows | src/main.rs:31-40 | with room for the hidden word's distinct letters and for the rest of the alphabet, folding its hints for a lower-case guess never panics and keeps that room |
| Solving.RequiredNeverOverflows | src/main.rs:31-35 | folding hints from the hidden word into a true store never panics with `RequiredFull` when the required buffer can hold the hidden word's distinct letters, whatever room the excluded buffer has |
| Solving.Retain | src/main.rs:129 | the filtered list is an order-preserving subsequence in which every word other than the guess that the store accepts occurs as often as in the list, and no other word occurs; it is no longer than before, and strictly shorter when the guess was in it |
| Solving.RetainKeepsAll | src/main.rs:129 | if every word passes and the guess is absent, the filter keeps the list as it is |
| Solving.RetainDropsHead | src/main.rs:129 | if the guess heads the list, occurs nowhere else, and every other word passes, the filter drops exactly the head |
| Solving.Start | src/main.rs:117-119 | the first round guesses "crane" over the whole dictionary with the empty store `New`: every position unknown, no required or excluded letters, the given excluded capacity |
| Solving.Round | src/main.rs:124-130 | a round wins iff the guess is the hidden word; if it continues, the next guess heads a subsequence of the candidates that omits the old guess, holds only words the new store accepts, and is strictly shorter when the old guess was a candidate; the next store is the fold of the guess's hints into the old one and the next candidates are exactly the `retain` of the old ones under it, so the next guess is the first survivor; a round that does not win aborts with the fold's panic when the fold panics, and with `NoCandidate` exactly when the fold succeeds and no candidate survives |
| Solving.RoundKeepsSecret | src/main.rs:124-130 | a round keeps the store true to the hidden word; with room in the buffers, a lower-case guess and the hidden word among the candidates, it either wins or continues with the hidden word still a candidate and the room kept |
| Solving.RoundOnlyOverflowsExcluded | src/main.rs:124-130 | with a true store and a required buffer that holds the hidden word's letters, a round never panics with `RequiredFull`; while the hidden word is a candidate, the `unwrap` of the first survivor never fails and the hidden word stays a candidate |
| Solving.Advance | src/main.rs:123-132 | playing up to n rounds that continues keeps the store well formed, with the same capacities |
| Solving.AdvancePastStop | src/main.rs:123-132 | a round after play has won or aborted leaves the outcome as it was |
| Solving.AdvanceStops | src/main.rs:123-132 | once play has won or aborted, any number of further rounds leaves the outcome as it was |
| Solving.ContinueKeepsInvariant | src/main.rs:123-131 | a round that continues keeps the solve loop's invariant: a true store, candidates drawn in order from the dictionary, and in a well-posed game the hidden word among them, buffer room, and a lower-case guess |
| Solving.LoopStep | src/main.rs:123-131 | a round that continues carries the solve loop's invariant from round i to round i + 1: a true store, the state reached by i rounds of play from the start, candidates shrinking in order from the dictionary, the hidden word kept among them when the dictionary holds it |
| Solving.LoopExit | src/main.rs:124-128 | a round of the loop that wins or aborts is the outcome of i rounds of play from the start, and of all 14999 |
| Solving.LoopDone | src/main.rs:123-134 | a loop that runs out of rounds leaves 14999 rounds of play from the start still going, at the state of its last guess |
| Solving.Solve | src/main.rs:115-135 | `solve` returns 1..15000 attempts, and fewer than 15000 only with the hidden word; with the hidden word "crane" it answers at once; in a well-posed game it finds the hidden word within the dictionary's size plus one attempts; it panics, wins, or runs out exactly as 14999 rounds of play do, and when it runs out it returns the guess play reached; a win in fewer than 15000 attempts comes in round `attempts` of play from the start, after `attempts - 1` rounds that continue to the returned guess; it never panics with `RequiredFull`, and never with `NoCandidate` when the dictionary holds the hidden word |
| ConcreteGames.CraneAgainstSlate | src/main.rs:74-84 | "crane" against "slate" scores `[Invalid, Invalid, Correct, Invalid, Correct]` |
| ConcreteGames.EerieAgainstCrane | src/main.rs:78-82 | "eerie" against "crane" scores `[Misplaced, Misplaced, Misplaced, Invalid, Correct]`: both out-of-place `e`s are `Misplaced` although "crane" holds one `e`, already matched at position 4 |
| ConcreteGames.FreshHints | src/main.rs:74-84 | a fresh guess (five different letters, none of them `b` or already excluded) scores all `Invalid` against "bbbbb" |
| ConcreteGames.FreshUpdate | src/main.rs:106-109 | with room for five more letters, folding an all-`Invalid` round for a word of new, distinct letters appends exactly that word to the excluded buffer |
| ConcreteGames.OverflowUpdate | src/main.rs:36-40 | with 20 of 21 excluded slots used, an all-`Invalid` round of five new letters panics with `ExcludedFull` |
| ConcreteGames.FreshRound | src/main.rs:124-130 | a round whose fresh guess heads the list bans its letters and makes the next candidate the guess |
| ConcreteGames.Round1 | src/main.rs:124-130 | against "bbbbb", round 1 bans c, r, a, n, e and keeps the whole dictionary |
| ConcreteGames.OverflowRound | src/main.rs:36-40 | against "bbbbb", after four rounds with the 21-letter buffer, round 5 panics with `ExcludedFull` |
| ConcreteGames.ExcludedOverflowWitness | src/main.rs:123-130 | as written, play against "bbbbb" over a dictionary that contains it is still going after round 4 and aborts with `ExcludedFull` in round 5, so at the end of the loop |
| ConcreteGames.AlphabetCapacitySolvesWitness | src/main.rs:123-127 | with room for the whole alphabet, the same game is still going after round 5 and is won in round 6, so at the end of the loop |
| ConcreteGames.AsWrittenSolve | src/main.rs:115-135 | `solve` as written panics with `ExcludedFull` on that game |
| ConcreteGames.CorrectedSolve | src/main.rs:115-135 | with an excluded buffer of 26 letters, `solve` finds "bbbbb" within the dictionary's size plus one attempts |
| ConcreteGames.AsWrittenRoomIffDistinct | src/main.rs:26 | with 21 slots, the excluded buffer has room for every letter a lower-case hidden word lacks iff the word's five letters are all different |
| ConcreteGames.AlphabetCapacityFits | src/main.rs:26 | with 26 slots, every lower-case hidden word in a small enough dictionary gives a well-posed game |

## Left out

- `main` and dictionary loading (src/main.rs:6, 139-143): this is file inclusion and parsing. `Solve` takes the dictionary as a list of words.
- `WordleGame::from_random` (src/main.rs:67-70): it needs a random number generator. A game is built from a given word, as `from_word` does.
- The `println!` calls in `solve` and `main`: they are output only.
- The conversion between `u8` and `char` (src/main.rs:45, 99-100, 104, 108): words are sequences of characters, so bytes and characters coincide as they do for ASCII.
- Dictionary lines shorter than five bytes: `ArrayString::from` accepts them, and indexing in the scorer would then panic. Every `Word` has exactly five characters.
- The internals of `arrayvec`: `ArrayString<N>` is a duplicate-free sequence with a capacity, and a push into a full one is the panic.
- Machine integers: the attempt counter stays at or below 15000, so `usize` never wraps and is modelled by `nat`.
- Solving.Solve: the guarantee of finding the hidden word also assumes every dictionary word is lower case and the excluded buffer has room for every letter the hidden word lacks, which the 21-letter buffer as written lacks for hidden words with a repeated letter (see "## Findings").

## Findings

| source | as written | input that shows it | evidently intended | confidence | as-written member | corrected member |
|---|---|---|---|---|---|---|
| src/main.rs:26 | the excluded letters are kept in an `ArrayString<21>`, so the 22nd distinct excluded letter makes `push` panic | hidden word "bbbbb", dictionary ["dfghi", "jklmo", "pqstu", "vwxyz", "bbbbb"]: rounds 1 to 4 exclude c, r, a, n, e and the first three words' letters (20 letters); in round 5, "vwxyz" brings the 21st letter `v` and then `w`, whose push panics | room for every letter the hidden word lacks: 26 minus its distinct letters, which is at most 25; a 26-letter buffer holds any set of lower-case letters. Then `solve` finds "bbbbb" in round 6 | not executed | ConcreteGames.ExcludedOverflowWitness | ConcreteGames.CorrectedSolve |

21 slots are enough exactly when the hidden word has five different letters (`ConcreteGames.AsWrittenRoomIffDistinct`). With 26 slots every lower-case hidden word fits (`ConcreteGames.AlphabetCapacityFits`). `ConcreteGames.AsWrittenSolve` calls `Solve` with the capacity as written, and `ConcreteGames.CorrectedSolve` with the corrected capacity. When the dictionary holds the hidden word, only the excluded buffer can make `solve` abort, whatever its capacity: the required buffer never overflows, and the candidate list never runs empty while it holds the hidden word (`Solving.Solve`, `Solving.RoundOnlyOverflowsExcluded`).

=== FILE: buffers.dfy ===
/** A fixed-capacity string of ASCII letters (the program's `ArrayString<N>`),
    used as a small set: a letter is pushed only when it is not already there,
    and a push into a full buffer aborts. */
module Buffers {
  import opened Words
  import opened Outcomes

  datatype Buffer = Buffer(letters: seq<char>, capacity: nat)

  /** What the buffer guarantees: no letter twice, never more than its capacity. */
  predicate Valid(b: Buffer) {
    Distinct(b.letters) && |b.letters| <= b.capacity
  }

  function Empty(capacity: nat): (b: Buffer)
    ensures Valid(b) && b.capacity == capacity && Letters(b.letters) == {}
  {
    Buffer([], capacity)
  }

  /** Pushes `c` unless it is already present; `None` is the panic of a
      push into a full buffer. */
  function Insert(b: Buffer, c: char): (r: Option<Buffer>)
    requires Valid(b)
    ensures r.None? <==> c !in b.letters && |b.letters| == b.capacity
    ensures r.Some? ==> Valid(r.value) && r.value.capacity == b.capacity
    ensures r.Some? ==> Letters(r.value.letters) == Letters(b.letters) + {c}
    ensures r.Some? ==> b.letters <= r.value.letters
    ensures c in b.letters ==> r == Some(b)
  {
    if c in b.letters then Some(b)
    else if |b.letters| + 1 > b.capacity then None
    else Some(Buffer(b.letters + [c], b.capacity))
  }
}

=== FILE: concrete_games.dfy ===
/** Concrete games: worked hints, an input on which the 21-letter excluded
    buffer overflows, and the capacity that avoids it. */
module ConcreteGames {
  import opened Words
  import opened Outcomes
  import opened Scoring
  import opened Matching
  import opened Solving
  import Buffers

  // ---------------------------------------------------------------------------
  // Worked hints
  // ---------------------------------------------------------------------------

  /** Against "slate", "crane" scores only its `a` and `e` as correct: the
      other three letters do not occur in "slate" at all. */
  lemma CraneAgainstSlate()
    ensures Guess(Game("slate"), "crane") == [Invalid, Invalid, Correct, Invalid, Correct]
  {}

  /** A repeated letter gets the same "somewhere in the word" hint at every
      position where it is not in place, however often it occurs. */
  lemma EerieAgainstCrane()
    ensures Guess(Game("crane"), "eerie") == [Misplaced, Misplaced, Misplaced, Invalid, Correct]
  {}

  // ---------------------------------------------------------------------------
  // A game whose hidden word has a single distinct letter
  // ---------------------------------------------------------------------------

  /** The hidden word. */
  const Repeated: Word := "bbbbb"

  /** A dictionary of words with five different letters each, none of them
      `b` or a letter of the opening guess, ending with the hidden word. */
  const Sparse: seq<Word> := ["dfghi", "jklmo", "pqstu", "vwxyz", "bbbbb"]

  /** Every guess of the game other than the hidden word scores like this. */
  const Pattern: Hints := [Invalid, Invalid, Invalid, Invalid, Invalid]

  /** No position is ever confirmed in this game. */
  const Blank: seq<CharMatcher> := [Unknown, Unknown, Unknown, Unknown, Unknown]

  /** The store during the game: nothing known or required, `excluded` banned. */
  function Store(excluded: string, capacity: nat): Matcher {
    Matcher(Blank, Buffers.Buffer([], RequiredCapacity), Buffers.Buffer(excluded, capacity))
  }

  /** `w` has five different letters, none of them `b` or banned already. */
  predicate Fresh(w: Word, excluded: string) {
    Distinct(w) && forall i :: 0 <= i < 5 ==> w[i] != 'b' && w[i] !in excluded
  }

  /** `w` uses no banned letter. */
  predicate Clear(w: Word, excluded: string) {
    forall i :: 0 <= i < 5 ==> w[i] !in excluded
  }

  /** A fresh guess scores every position `Invalid`. */
  lemma FreshHints(w: Word, excluded: string)
    requires Fresh(w, excluded)
    ensures Guess(Game(Repeated), w) == Pattern
  {}

  /** Banning a fresh word's letters keeps the banned letters distinct. */
  lemma FreshExtends(excluded: string, w: Word)
    requires Distinct(excluded) && 'b' !in excluded && Fresh(w, excluded)
    ensures Distinct(excluded + w) && 'b' !in excluded + w
  {}

  /** The first three letters of a fresh guess are banned, in order. */
  lemma FreshFirstSteps(excluded: string, w: Word, capacity: nat)
    requires Distinct(excluded) && |excluded| + 5 <= capacity
    requires Fresh(w, excluded)
    ensures UpdateFrom(Store(excluded, capacity), Pattern, w, 0)
         == UpdateFrom(Store(excluded + w[..3], capacity), Pattern, w, 3)
  {
    var m1 := Store(excluded + w[..1], capacity);
    var m2 := Store(excluded + w[..2], capacity);
    var m3 := Store(excluded + w[..3], capacity);
    assert Transition(Store(excluded, capacity), Invalid, w, 0) == Ok(m1) by {
      assert excluded + [w[0]] == excluded + w[..1];
    }
    assert Transition(m1, Invalid, w, 1) == Ok(m2) by {
      assert excluded + w[..1] + [w[1]] == excluded + w[..2];
    }
    assert Transition(m2, Invalid, w, 2) == Ok(m3) by {
      assert excluded + w[..2] + [w[2]] == excluded + w[..3];
    }
  }

  /** The last two letters of a fresh guess are banned, in order. */
  lemma FreshLastSteps(excluded: string, w: Word, capacity: nat)
    requires Distinct(excluded) && |excluded| + 5 <= capacity
    requires Fresh(w, excluded)
    ensures UpdateFrom(Store(excluded + w[..3], capacity), Pattern, w, 3) == Ok(Store(excluded + w, capacity))
  {
    var m3 := Store(excluded + w[..3], capacity);
    var m4 := Store(excluded + w[..4], capacity);
    assert Transition(m3, Invalid, w, 3) == Ok(m4) by {
      assert excluded + w[..3] + [w[3]] == excluded + w[..4];
    }
    assert Transition(m4, Invalid, w, 4) == Ok(Store(excluded + w, capacity)) by {
      assert excluded + w[..4] + [w[4]] == excluded + w;
    }
  }

  /** A fresh guess bans its five letters, in order. */
  lemma FreshUpdate(excluded: string, w: Word, capacity: nat)
    requires Distinct(excluded) && |excluded| + 5 <= capacity
    requires Fresh(w, excluded)
    ensures UpdatePattern(Store(excluded, capacity), Pattern, w) == Ok(Store(excluded + w, capacity))
  {
    FreshFirstSteps(excluded, w, capacity);
    FreshLastSteps(excluded, w, capacity);
  }

  /** With twenty letters already banned and room for 21, the second letter
      of a fresh guess does not fit. */
  lemma OverflowUpdate(excluded: string, w: Word)
    requires Distinct(excluded) && |excluded| == 20
    requires Fresh(w, excluded)
    ensures UpdatePattern(Store(excluded, ExcludedCapacity), Pattern, w) == Panicked(ExcludedFull)
  {
    var m1 := Store(excluded + [w[0]], ExcludedCapacity);
    assert Transition(Store(excluded, ExcludedCapacity), Invalid, w, 0) == Ok(m1);
    assert Transition(m1, Invalid, w, 1) == Panicked(ExcludedFull);
    assert UpdateFrom(m1, Pattern, w, 1) == Panicked(ExcludedFull);
  }

  /** Every clear word survives the store. */
  lemma ClearSurvives(list: seq<Word>, excluded: string, capacity: nat)
    requires forall k :: 0 <= k < |list| ==> Clear(list[k], excluded)
    ensures forall k :: 0 <= k < |list| ==> Validate(Store(excluded, capacity), list[k])
  {}

  /** A round whose guess is fresh and heads the candidate list: the store
      bans the guess's letters and the next candidate becomes the guess. */
  lemma FreshRound(excluded: string, candidates: seq<Word>, capacity: nat)
    requires Distinct(excluded) && 'b' !in excluded && |excluded| + 5 <= capacity
    requires |candidates| >= 2 && Fresh(candidates[0], excluded) && candidates[0] !in candidates[1..]
    requires forall k :: 1 <= k < |candidates| ==> Clear(candidates[k], excluded + candidates[0])
    ensures Round(Game(Repeated), State(candidates[0], Store(excluded, capacity), candidates))
         == Continue(State(candidates[1], Store(excluded + candidates[0], capacity), candidates[1..]))
    ensures Distinct(excluded + candidates[0]) && 'b' !in excluded + candidates[0]
  {
    var w := candidates[0];
    FreshHints(w, excluded);
    FreshUpdate(excluded, w, capacity);
    FreshExtends(excluded, w);
    ClearSurvives(candidates[1..], excluded + w, capacity);
    RetainDropsHead(candidates, Store(excluded + w, capacity));
  }

  /** The letters banned before rounds 2 to 5: the guesses so far. */
  const Banned1: string := Opening
  const Banned2: string := Banned1 + Sparse[0]
  const Banned3: string := Banned2 + Sparse[1]
  const Banned4: string := Banned3 + Sparse[2]
  const Banned5: string := Banned4 + Sparse[3]

  /** The state before round `k + 1`. */
  function Before(k: nat, capacity: nat): State
    requires 1 <= k <= 5
  {
    var banned := if k == 1 then Banned1 else if k == 2 then Banned2 else if k == 3 then Banned3
                  else if k == 4 then Banned4 else Banned5;
    State(Sparse[k - 1], Store(banned, capacity), Sparse[k - 1..])
  }

  /** No word of the dictionary shares a letter with the opening guess. */
  lemma SparseAvoidsOpening()
    ensures forall k :: 0 <= k < |Sparse| ==> Clear(Sparse[k], Banned1)
  {}

  /** The opening guess bans c, r, a, n and e. */
  lemma OpeningUpdate(capacity: nat)
    requires capacity >= 5
    ensures UpdatePattern(New(capacity), Guess(Game(Repeated), Opening), Opening) == Ok(Store(Banned1, capacity))
  {
    assert New(capacity) == Store([], capacity);
    assert [] + Opening == Banned1;
    FreshHints(Opening, []);
    FreshUpdate([], Opening, capacity);
  }

  /** The opening guess is no candidate, so every word of the dictionary stays. */
  lemma OpeningRetain(capacity: nat)
    requires capacity >= 5
    ensures Retain(Sparse, Opening, Store(Banned1, capacity)) == Sparse
  {
    SparseAvoidsOpening();
    ClearSurvives(Sparse, Banned1, capacity);
    RetainKeepsAll(Sparse, Opening, Store(Banned1, capacity));
  }

  /** Round 1: the opening guess bans its letters and the first word of the
      dictionary becomes the guess. */
  lemma Round1(capacity: nat)
    requires capacity >= 5
    ensures Round(Game(Repeated), Start(Sparse, capacity)) == Continue(Before(1, capacity))
    ensures Distinct(Banned1) && 'b' !in Banned1
  {
    OpeningUpdate(capacity);
    OpeningRetain(capacity);
    assert Sparse[0..] == Sparse;
  }

  /** Round 2: "dfghi" is banned and dropped from the candidates. */
  lemma Round2(capacity: nat)
    requires capacity >= 10
    requires Distinct(Banned1) && 'b' !in Banned1
    ensures Round(Game(Repeated), Before(1, capacity)) == Continue(Before(2, capacity))
    ensures Distinct(Banned2) && 'b' !in Banned2
  {
    FreshRound(Banned1, Sparse[0..], capacity);
    assert Sparse[0..][1..] == Sparse[1..] && Sparse[0..][1] == Sparse[1];
  }

  /** Round 3: "jklmo" is banned and dropped from the candidates. */
  lemma Round3(capacity: nat)
    requires capacity >= 15
    requires Distinct(Banned2) && 'b' !in Banned2
    ensures Round(Game(Repeated), Before(2, capacity)) == Continue(Before(3, capacity))
    ensures Distinct(Banned3) && 'b' !in Banned3
  {
    FreshRound(Banned2, Sparse[1..], capacity);
    assert Sparse[1..][1..] == Sparse[2..] && Sparse[1..][1] == Sparse[2];
  }

  /** Round 4: "pqstu" is banned and dropped from the candidates. */
  lemma Round4(capacity: nat)
    requires capacity >= 20
    requires Distinct(Banned3) && 'b' !in Banned3
    ensures Round(Game(Repeated), Before(3, capacity)) == Continue(Before(4, capacity))
    ensures Distinct(Banned4) && 'b' !in Banned4
  {
    FreshRound(Banned3, Sparse[2..], capacity);
    assert Sparse[2..][1..] == Sparse[3..] && Sparse[2..][1] == Sparse[3];
  }

  /** Round 5 with room for the whole alphabet: "vwxyz" is banned and the
      hidden word is the only candidate left. */
  lemma Round5(capacity: nat)
    requires capacity >= 25
    requires Distinct(Banned4) && 'b' !in Banned4
    ensures Round(Game(Repeated), Before(4, capacity)) == Continue(Before(5, capacity))
  {
    FreshRound(Banned4, Sparse[3..], capacity);
    assert Sparse[3..][1..] == Sparse[4..] && Sparse[3..][1] == Sparse[4];
  }

  /** Round 5 with the program's capacity: "vwxyz" brings the 21st and then
      the 22nd banned letter, and the push of the 22nd aborts. */
  lemma OverflowRound()
    requires Distinct(Banned4) && 'b' !in Banned4
    ensures Round(Game(Repeated), Before(4, ExcludedCapacity)) == Crashed(ExcludedFull)
  {
    FreshHints(Sparse[3], Banned4);
    OverflowUpdate(Banned4, Sparse[3]);
  }

  /** As written: with room for 21 excluded letters, play on this dictionary,
      which holds the hidden word, aborts in round 5, well within the solve
      loop's bound. */
  lemma ExcludedOverflowWitness()
    ensures Advance(Game(Repeated), Start(Sparse, ExcludedCapacity), 4).Continue?
    ensures Advance(Game(Repeated), Start(Sparse, ExcludedCapacity), 5) == Crashed(ExcludedFull)
    ensures Advance(Game(Repeated), Start(Sparse, ExcludedCapacity), MaxGuesses - 1) == Crashed(ExcludedFull)
  {
    var g := Game(Repeated);
    Round1(ExcludedCapacity);
    Round2(ExcludedCapacity);
    Round3(ExcludedCapacity);
    Round4(ExcludedCapacity);
    OverflowRound();
    var start := Start(Sparse, ExcludedCapacity);
    assert Advance(g, start, 1) == Continue(Before(1, ExcludedCapacity));
    assert Advance(g, start, 2) == Continue(Before(2, ExcludedCapacity));
    assert Advance(g, start, 3) == Continue(Before(3, ExcludedCapacity));
    assert Advance(g, start, 4) == Continue(Before(4, ExcludedCapacity));
    assert Advance(g, start, 5) == Crashed(ExcludedFull);
    AdvanceStops(g, start, 5, MaxGuesses - 1);
  }

  /** Corrected: with room for the whole alphabet, play on the same
      dictionary finds the hidden word in round 6. */
  lemma AlphabetCapacitySolvesWitness()
    ensures Advance(Game(Repeated), Start(Sparse, AlphabetCapacity), 5).Continue?
    ensures Advance(Game(Repeated), Start(Sparse, AlphabetCapacity), 6) == Solved
    ensures Advance(Game(Repeated), Start(Sparse, AlphabetCapacity), MaxGuesses - 1) == Solved
  {
    var g := Game(Repeated);
    Round1(AlphabetCapacity);
    Round2(AlphabetCapacity);
    Round3(AlphabetCapacity);
    Round4(AlphabetCapacity);
    Round5(AlphabetCapacity);
    assert Before(5, AlphabetCapacity).guess == Repeated;
    var start := Start(Sparse, AlphabetCapacity);
    assert Advance(g, start, 1) == Continue(Before(1, AlphabetCapacity));
    assert Advance(g, start, 2) == Continue(Before(2, AlphabetCapacity));
    assert Advance(g, start, 3) == Continue(Before(3, AlphabetCapacity));
    assert Advance(g, start, 4) == Continue(Before(4, AlphabetCapacity));
    assert Advance(g, start, 5) == Continue(Before(5, AlphabetCapacity));
    assert Advance(g, start, 6) == Solved;
    AdvanceStops(g, start, 6, MaxGuesses - 1);
  }

  /** The solve loop itself, as written, aborts on this dictionary. */
  method AsWrittenSolve() returns (r: Result<Answer>)
    ensures r == Panicked(ExcludedFull)
  {
    ExcludedOverflowWitness();
    r := Solve(Game(Repeated), Sparse, ExcludedCapacity);
  }

  /** With room for the whole alphabet the solve loop finds the hidden word. */
  method CorrectedSolve() returns (r: Result<Answer>)
    ensures r.Ok? && r.value.word == Repeated && r.value.attempts <= |Sparse| + 1
  {
    AlphabetCapacityFits(Game(Repeated), Sparse);
    r := Solve(Game(Repeated), Sparse, AlphabetCapacity);
  }

  /** As written, a lower-case hidden word leaves room in the excluded buffer
      exactly when its five letters are all different. */
  lemma AsWrittenRoomIffDistinct(secret: Word)
    requires IsLowercase(secret)
    ensures |Alphabet - Letters(secret)| <= ExcludedCapacity <==> |Letters(secret)| == 5
  {
    AlphabetSize();
    LettersCount(secret);
    assert Letters(secret) <= Alphabet;
    assert Alphabet == (Alphabet - Letters(secret)) + Letters(secret);
  }

  /** With room for the whole alphabet every solvable game is well posed:
      the capacity condition holds for every lower-case hidden word. */
  lemma AlphabetCapacityFits(game: Game, dictionary: seq<Word>)
    requires game.word in dictionary && |dictionary| <= MaxGuesses - 2
    requires forall w :: w in dictionary ==> IsLowercase(w)
    ensures WellPosed(game, dictionary, AlphabetCapacity)
  {
    AlphabetSize();
    SubsetSize(Alphabet - Letters(game.word), Alphabet);
  }
}

=== FILE: matching.dfy ===
/** The constraint store: what is known about the hidden word so far, and the
    test a candidate word must pass to stay in the running. */
module Matching {
  import opened Words
  import opened Outcomes
  import Buffers

  /** Either the letter at a position is certain, or it is not. */
  datatype CharMatcher = Known(letter: char) | Unknown

  /** Per-position knowledge, the letters known to occur somewhere in the
      hidden word ("required"), and the letters known not to occur ("excluded"). */
  datatype Matcher = Matcher(slots: seq<CharMatcher>, required: Buffers.Buffer, excluded: Buffers.Buffer)

  /** Capacity of the required-letter buffer, `ArrayString<5>`. */
  const RequiredCapacity: nat := 5

  /** Capacity of the excluded-letter buffer as the program declares it, `ArrayString<21>`. */
  const ExcludedCapacity: nat := 21

  predicate Valid(m: Matcher) {
    |m.slots| == 5 && Buffers.Valid(m.required) && Buffers.Valid(m.excluded)
  }

  /** The required letters, as a set. */
  function Required(m: Matcher): set<char> {
    Letters(m.required.letters)
  }

  /** The excluded letters, as a set. */
  function Excluded(m: Matcher): set<char> {
    Letters(m.excluded.letters)
  }

  /** The empty store: nothing known, no letter required or excluded. The
      excluded buffer's capacity is a parameter; the program uses `ExcludedCapacity`. */
  function New(excludedCapacity: nat): (m: Matcher)
    ensures Valid(m)
    ensures forall i :: 0 <= i < 5 ==> m.slots[i] == Unknown
    ensures Required(m) == {} && Excluded(m) == {}
    ensures m.required.capacity == RequiredCapacity && m.excluded.capacity == excludedCapacity
    ensures forall w: Word :: Validate(m, w)
  {
    Matcher([Unknown, Unknown, Unknown, Unknown, Unknown],
            Buffers.Empty(RequiredCapacity), Buffers.Empty(excludedCapacity))
  }

  /** Records that `c` occurs in the hidden word. */
  function Add(m: Matcher, c: char): (r: Result<Matcher>)
    requires Valid(m)
    ensures r.Panicked? <==> c !in Required(m) && |m.required.letters| == m.required.capacity
    ensures r.Panicked? ==> r.cause == RequiredFull
    ensures r.Ok? ==> Valid(r.value) && Required(r.value) == Required(m) + {c}
    ensures r.Ok? ==> m.required.letters <= r.value.required.letters
    ensures r.Ok? ==> r.value.required.capacity == m.required.capacity
    ensures r.Ok? ==> r.value.slots == m.slots && r.value.excluded == m.excluded
    ensures c in Required(m) ==> r == Ok(m)
  {
    match Buffers.Insert(m.required, c)
    case None => Panicked(RequiredFull)
    case Some(b) => Ok(m.(required := b))
  }

  /** Records that `c` does not occur in the hidden word (the program calls this `remove`). */
  function Remove(m: Matcher, c: char): (r: Result<Matcher>)
    requires Valid(m)
    ensures r.Panicked? <==> c !in Excluded(m) && |m.excluded.letters| == m.excluded.capacity
    ensures r.Panicked? ==> r.cause == ExcludedFull
    ensures r.Ok? ==> Valid(r.value) && Excluded(r.value) == Excluded(m) + {c}
    ensures r.Ok? ==> m.excluded.letters <= r.value.excluded.letters
    ensures r.Ok? ==> r.value.excluded.capacity == m.excluded.capacity
    ensures r.Ok? ==> r.value.slots == m.slots && r.value.required == m.required
    ensures c in Excluded(m) ==> r == Ok(m)
  {
    match Buffers.Insert(m.excluded, c)
    case None => Panicked(ExcludedFull)
    case Some(b) => Ok(m.(excluded := b))
  }

  /** Whether `word` is still possible: no letter excluded, every known position
      matched. The required letters are not consulted. */
  function Validate(m: Matcher, word: Word): (ok: bool)
    requires |m.slots| == 5
    ensures ok <==> forall i :: 0 <= i < 5 ==>
                      word[i] !in Excluded(m) && (m.slots[i].Known? ==> word[i] == m.slots[i].letter)
  {
    ValidateFrom(m, word, 0)
  }

  /** The scan behind `Validate`, from position `i` on, stopping at the first
      rejected letter. */
  function ValidateFrom(m: Matcher, word: Word, i: nat): (ok: bool)
    requires |m.slots| == 5 && i <= 5
    ensures ok <==> forall j :: i <= j < 5 ==>
                      word[j] !in Excluded(m) && (m.slots[j].Known? ==> word[j] == m.slots[j].letter)
    decreases 5 - i
  {
    if i == 5 then true
    else
      var illegal := word[i] in m.excluded.letters;
      var known := match m.slots[i] case Known(b) => word[i] == b case Unknown => true;
      if illegal || !known then false else ValidateFrom(m, word, i + 1)
  }
}

=== FILE: outcomes.dfy ===
/** The two ways an operation of the solver can end: with a value, or by
    panicking (a full fixed-capacity buffer, or an `unwrap` of nothing). */
module Outcomes {

  /** An optional value, for operations whose only failure needs no explanation. */
  datatype Option<+T> = None | Some(value: T)

  /** Why the program aborts. */
  datatype Panic =
    | RequiredFull   // a push into the five-letter required buffer found it full
    | ExcludedFull   // a push into the excluded-letter buffer found it full
    | NoCandidate    // the filtered candidate list was empty when its first element was taken

  /** A value, or the panic that prevented it. */
  datatype Result<+T> = Ok(value: T) | Panicked(cause: Panic)
}

=== FILE: scoring.dfy ===
/** The game: a hidden word and the hints it gives for a guess. */
module Scoring {
  import opened Words

  /** The reply for one position of a guess. */
  datatype Hint = Invalid | Misplaced | Correct

  /** One hint per position of a five-letter guess. */
  type Hints = h: seq<Hint> | |h| == 5 witness [Invalid, Invalid, Invalid, Invalid, Invalid]

  /** A game is its hidden word; `Game(w)` is the game built from a given word. */
  datatype Game = Game(word: Word)

  /** Scores `guess` against the hidden word. A letter that is not in place is
      `Misplaced` whenever the hidden word contains it anywhere, however many
      times it occurs in either word. */
  function Guess(game: Game, guess: Word): (h: Hints)
    ensures forall i :: 0 <= i < 5 ==> (h[i] == Correct <==> guess[i] == game.word[i])
    ensures forall i :: 0 <= i < 5 ==> (h[i] == Invalid <==> guess[i] !in game.word)
    ensures forall i :: 0 <= i < 5 ==> (h[i] == Misplaced <==> guess[i] != game.word[i] && guess[i] in game.word)
  {
    seq(5, i requires 0 <= i < 5 =>
      if game.word[i] == guess[i] then Correct
      else if guess[i] in game.word then Misplaced
      else Invalid)
  }

  /** Every position is `Correct`: the game is won. */
  predicate IsSolved(h: Hints) {
    forall i :: 0 <= i < 5 ==> h[i] == Correct
  }

  /** The guess wins exactly when it is the hidden word. */
  lemma SolvedIffHidden(game: Game, guess: Word)
    ensures IsSolved(Guess(game, guess)) <==> guess == game.word
  {
    if IsSolved(Guess(game, guess)) {
      assert forall i :: 0 <= i < 5 ==> guess[i] == game.word[i];
    }
  }

  /** Two occurrences of one letter, neither in place, get the same hint,
      so a letter the hidden word holds once can be reported `Misplaced` twice. */
  lemma RepeatedLetterSameHint(game: Game, guess: Word, i: nat, j: nat)
    requires i < 5 && j < 5 && guess[i] == guess[j]
    requires guess[i] != game.word[i] && guess[j] != game.word[j]
    ensures Guess(game, guess)[i] == Guess(game, guess)[j]
    ensures Guess(game, guess)[i] != Correct
  {
  }
}

=== FILE: solving.dfy ===
/** The solver: folding a round's hints into the constraint store, filtering
    the candidate list, and the bounded guess loop. */
module Solving {
  import opened Words
  import opened Outcomes
  import opened Subsequences
  import opened Scoring
  import opened Matching

  /** The fixed opening guess. */
  const Opening: Word := "crane"

  /** The guess budget: rounds 1 to `MaxGuesses - 1` are played. */
  const MaxGuesses: nat := 15000

  /** Capacity of an excluded-letter buffer that can hold the whole alphabet. */
  const AlphabetCapacity: nat := 26

  // ---------------------------------------------------------------------------
  // Folding hints into the store
  // ---------------------------------------------------------------------------

  /** Hint `h` at a position with knowledge `k` makes the guessed letter required. */
  predicate Gains(k: CharMatcher, h: Hint) {
    h == Misplaced || (h == Correct && k == Unknown)
  }

  /** The guessed letters that positions `from`..4 make required. */
  function Gained(m: Matcher, hint: Hints, guess: Word, from: nat): set<char>
    requires Valid(m)
  {
    set j | from <= j < 5 && Gains(m.slots[j], hint[j]) :: guess[j]
  }

  /** The guessed letters that positions `from`..4 make excluded. */
  function Banned(hint: Hints, guess: Word, from: nat): set<char> {
    set j | from <= j < 5 && hint[j] == Invalid :: guess[j]
  }

  /** One row of the transition table, applied at position `i`. */
  function Transition(m: Matcher, h: Hint, guess: Word, i: nat): (r: Result<Matcher>)
    requires Valid(m) && i < 5
    ensures r.Ok? ==> Valid(r.value)
    ensures r.Ok? ==> r.value.required.capacity == m.required.capacity
    ensures r.Ok? ==> r.value.excluded.capacity == m.excluded.capacity
    ensures r.Ok? ==> forall j :: 0 <= j < 5 && j != i ==> r.value.slots[j] == m.slots[j]
    ensures r.Ok? ==> r.value.slots[i] == (if h == Correct && m.slots[i] == Unknown then Known(guess[i]) else m.slots[i])
    ensures r.Ok? ==> Required(r.value) == Required(m) + (if Gains(m.slots[i], h) then {guess[i]} else {})
    ensures r.Ok? ==> Excluded(r.value) == Excluded(m) + (if h == Invalid then {guess[i]} else {})
    ensures r.Ok? ==> m.required.letters <= r.value.required.letters
    ensures r.Ok? ==> m.excluded.letters <= r.value.excluded.letters
    ensures r.Panicked? ==> r.cause != NoCandidate
    ensures r == Panicked(RequiredFull) ==>
              Gains(m.slots[i], h) && guess[i] !in Required(m) && |m.required.letters| == m.required.capacity
    ensures r == Panicked(ExcludedFull) ==>
              h == Invalid && guess[i] !in Excluded(m) && |m.excluded.letters| == m.excluded.capacity
  {
    match (m.slots[i], h)
    case (Known(_), Correct) => Ok(m)
    case (Unknown, Correct) => Add(m.(slots := m.slots[i := Known(guess[i])]), guess[i])
    case (_, Misplaced) => Add(m, guess[i])
    case (_, Invalid) => Remove(m, guess[i])
  }

  /** A store never holds more distinct letters than its buffers' capacities. */
  lemma WithinCapacity(m: Matcher)
    requires Valid(m)
    ensures |Required(m)| == |m.required.letters| <= m.required.capacity
    ensures |Excluded(m)| == |m.excluded.letters| <= m.excluded.capacity
  {
    LettersCount(m.required.letters);
    LettersCount(m.excluded.letters);
  }

  /** Splitting off position `i` from the letters positions `i`..4 contribute. */
  lemma GainedStep(m: Matcher, m': Matcher, hint: Hints, guess: Word, i: nat)
    requires Valid(m) && Valid(m') && i < 5
    requires forall j :: i < j < 5 ==> m'.slots[j] == m.slots[j]
    ensures Gained(m, hint, guess, i)
            == (if Gains(m.slots[i], hint[i]) then {guess[i]} else {}) + Gained(m', hint, guess, i + 1)
    ensures Banned(hint, guess, i) == (if hint[i] == Invalid then {guess[i]} else {}) + Banned(hint, guess, i + 1)
  {
  }

  /** The transition table applied at positions `i`..4, in order. */
  function UpdateFrom(m: Matcher, hint: Hints, guess: Word, i: nat): (r: Result<Matcher>)
    requires Valid(m) && i <= 5
    ensures r.Ok? ==> Valid(r.value)
    ensures r.Ok? ==> r.value.required.capacity == m.required.capacity
    ensures r.Ok? ==> r.value.excluded.capacity == m.excluded.capacity
    decreases 5 - i
  {
    if i == 5 then Ok(m)
    else
      match Transition(m, hint[i], guess, i)
      case Panicked(c) => Panicked(c)
      case Ok(m') => UpdateFrom(m', hint, guess, i + 1)
  }

  /** What `UpdateFrom` records when it completes: positions `i`..4 follow the
      table, and the letters they contribute are added to the buffers. */
  lemma {:induction false} UpdateFromRecords(m: Matcher, hint: Hints, guess: Word, i: nat)
    requires Valid(m) && i <= 5
    ensures var r := UpdateFrom(m, hint, guess, i);
            r.Ok? ==> forall j :: 0 <= j < 5 ==>
              r.value.slots[j] == (if i <= j && hint[j] == Correct && m.slots[j] == Unknown then Known(guess[j]) else m.slots[j])
    ensures var r := UpdateFrom(m, hint, guess, i);
            r.Ok? ==> Required(r.value) == Required(m) + Gained(m, hint, guess, i)
    ensures var r := UpdateFrom(m, hint, guess, i);
            r.Ok? ==> Excluded(r.value) == Excluded(m) + Banned(hint, guess, i)
    ensures var r := UpdateFrom(m, hint, guess, i);
            r.Ok? ==> m.required.letters <= r.value.required.letters && m.excluded.letters <= r.value.excluded.letters
    decreases 5 - i
  {
    if i == 5 {
      assert Gained(m, hint, guess, i) == {} && Banned(hint, guess, i) == {};
    } else {
      var t := Transition(m, hint[i], guess, i);
      if t.Ok? {
        var m' := t.value;
        assert UpdateFrom(m, hint, guess, i) == UpdateFrom(m', hint, guess, i + 1);
        TransitionStep(m, m', hint, guess, i);
        UpdateFromRecords(m', hint, guess, i + 1);
      }
    }
  }

  /** A row of the table that aborts leaves more letters than the buffer it
      names holds. */
  lemma TransitionPanicOverflows(m: Matcher, hint: Hints, guess: Word, i: nat)
    requires Valid(m) && i < 5
    requires Transition(m, hint[i], guess, i).Panicked?
    ensures Transition(m, hint[i], guess, i) == Panicked(RequiredFull) ==>
              |Required(m) + Gained(m, hint, guess, i)| > m.required.capacity
    ensures Transition(m, hint[i], guess, i) == Panicked(ExcludedFull) ==>
              |Excluded(m) + Banned(hint, guess, i)| > m.excluded.capacity
  {
    GainedStep(m, m, hint, guess, i);
    WithinCapacity(m);
    if Transition(m, hint[i], guess, i) == Panicked(RequiredFull) {
      SubsetSize(Required(m) + {guess[i]}, Required(m) + Gained(m, hint, guess, i));
    } else {
      SubsetSize(Excluded(m) + {guess[i]}, Excluded(m) + Banned(hint, guess, i));
    }
  }

  /** After one row of the table, the letters still to be recorded by the
      remaining positions bring the store to the same sets as before. */
  lemma TransitionStep(m: Matcher, m': Matcher, hint: Hints, guess: Word, i: nat)
    requires Valid(m) && i < 5 && Transition(m, hint[i], guess, i) == Ok(m')
    ensures Required(m') + Gained(m', hint, guess, i + 1) == Required(m) + Gained(m, hint, guess, i)
    ensures Excluded(m') + Banned(hint, guess, i + 1) == Excluded(m) + Banned(hint, guess, i)
  {
    GainedStep(m, m', hint, guess, i);
    var g := if Gains(m.slots[i], hint[i]) then {guess[i]} else {};
    var b := if hint[i] == Invalid then {guess[i]} else {};
    assert Required(m') == Required(m) + g;
    assert Excluded(m') == Excluded(m) + b;
  }

  /** `UpdateFrom` aborts exactly when the letters it would record do not fit
      in a buffer. */
  lemma {:induction false} UpdateFromPanics(m: Matcher, hint: Hints, guess: Word, i: nat)
    requires Valid(m) && i <= 5
    ensures UpdateFrom(m, hint, guess, i).Panicked? <==>
              || |Required(m) + Gained(m, hint, guess, i)| > m.required.capacity
              || |Excluded(m) + Banned(hint, guess, i)| > m.excluded.capacity
    decreases 5 - i
  {
    if i == 5 {
      assert Gained(m, hint, guess, i) == {} && Banned(hint, guess, i) == {};
      WithinCapacity(m);
      return;
    }
    var r := UpdateFrom(m, hint, guess, i);
    var need := Required(m) + Gained(m, hint, guess, i);
    var ban := Excluded(m) + Banned(hint, guess, i);
    if r.Ok? {
      WithinCapacity(r.value);
      UpdateFromRecords(m, hint, guess, i);
      assert Required(r.value) == need && Excluded(r.value) == ban;
    } else {
      var t := Transition(m, hint[i], guess, i);
      if t.Ok? {
        var m' := t.value;
        assert r == UpdateFrom(m', hint, guess, i + 1);
        TransitionStep(m, m', hint, guess, i);
        UpdateFromPanics(m', hint, guess, i + 1);
      } else {
        TransitionPanicOverflows(m, hint, guess, i);
      }
    }
  }

  /** Which buffer an aborted fold names: `RequiredFull` only when the
      required letters do not fit, `ExcludedFull` only when the excluded ones
      do not; a fold never aborts for want of a candidate. */
  lemma {:induction false} UpdateFromPanicCause(m: Matcher, hint: Hints, guess: Word, i: nat)
    requires Valid(m) && i <= 5
    ensures UpdateFrom(m, hint, guess, i) != Panicked(NoCandidate)
    ensures UpdateFrom(m, hint, guess, i) == Panicked(RequiredFull) ==>
              |Required(m) + Gained(m, hint, guess, i)| > m.required.capacity
    ensures UpdateFrom(m, hint, guess, i) == Panicked(ExcludedFull) ==>
              |Excluded(m) + Banned(hint, guess, i)| > m.excluded.capacity
    decreases 5 - i
  {
    if i < 5 {
      var t := Transition(m, hint[i], guess, i);
      if t.Ok? {
        var m' := t.value;
        assert UpdateFrom(m, hint, guess, i) == UpdateFrom(m', hint, guess, i + 1);
        TransitionStep(m, m', hint, guess, i);
        UpdateFromPanicCause(m', hint, guess, i + 1);
      } else {
        TransitionPanicOverflows(m, hint, guess, i);
      }
    }
  }

  /** Folds one round's hints into the store, position by position. */
  function UpdatePattern(m: Matcher, hint: Hints, guess: Word): (r: Result<Matcher>)
    requires Valid(m)
    ensures r.Ok? ==> Valid(r.value)
    ensures r.Ok? ==> r.value.required.capacity == m.required.capacity
    ensures r.Ok? ==> r.value.excluded.capacity == m.excluded.capacity
  {
    UpdateFrom(m, hint, guess, 0)
  }

  /** The transition table, over a whole round: a known position never
      changes; an unknown one confirmed `Correct` becomes known; `Misplaced`
      letters and newly confirmed letters become required; `Invalid` letters
      become excluded; the buffers only grow at their ends; and the fold aborts
      exactly when a buffer cannot hold its letters. */
  lemma UpdatePatternTable(m: Matcher, hint: Hints, guess: Word)
    requires Valid(m)
    ensures var r := UpdatePattern(m, hint, guess);
            r.Ok? ==> forall i :: 0 <= i < 5 && m.slots[i].Known? ==> r.value.slots[i] == m.slots[i]
    ensures var r := UpdatePattern(m, hint, guess);
            r.Ok? ==> forall i :: 0 <= i < 5 && m.slots[i] == Unknown && hint[i] == Correct ==>
              r.value.slots[i] == Known(guess[i])
    ensures var r := UpdatePattern(m, hint, guess);
            r.Ok? ==> forall i :: 0 <= i < 5 && hint[i] != Correct ==> r.value.slots[i] == m.slots[i]
    ensures var r := UpdatePattern(m, hint, guess);
            r.Ok? ==> Required(r.value) == Required(m) + Gained(m, hint, guess, 0)
    ensures var r := UpdatePattern(m, hint, guess);
            r.Ok? ==> Excluded(r.value) == Excluded(m) + Banned(hint, guess, 0)
    ensures var r := UpdatePattern(m, hint, guess);
            r.Ok? ==> m.required.letters <= r.value.required.letters && m.excluded.letters <= r.value.excluded.letters
    ensures UpdatePattern(m, hint, guess).Panicked? <==>
              || |Required(m) + Gained(m, hint, guess, 0)| > m.required.capacity
              || |Excluded(m) + Banned(hint, guess, 0)| > m.excluded.capacity
  {
    UpdateFromRecords(m, hint, guess, 0);
    UpdateFromPanics(m, hint, guess, 0);
  }

  // ---------------------------------------------------------------------------
  // Soundness: hints about one hidden word never rule that word out
  // ---------------------------------------------------------------------------

  /** What a store built only from hints about `secret` can know: known
      positions hold the secret's letters, required letters occur in it,
      excluded letters do not. */
  predicate Sound(m: Matcher, secret: Word) {
    && Valid(m)
    && (forall i :: 0 <= i < 5 && m.slots[i].Known? ==> m.slots[i].letter == secret[i])
    && Required(m) <= Letters(secret)
    && Excluded(m) !! Letters(secret)
  }

  /** The buffers are large enough for every letter hints about `secret` can
      record: the required buffer for the secret's distinct letters, the
      excluded buffer for the rest of the alphabet. */
  predicate HasRoom(m: Matcher, secret: Word) {
    && Excluded(m) <= Alphabet
    && |Letters(secret)| <= m.required.capacity
    && |Alphabet - Letters(secret)| <= m.excluded.capacity
  }

  /** A sound store accepts the secret, and no letter is both required and excluded. */
  lemma SoundAcceptsSecret(m: Matcher, secret: Word)
    requires Sound(m, secret)
    ensures Validate(m, secret)
    ensures Required(m) !! Excluded(m)
  {
  }

  /** The letters a round of the secret's hints requires occur in the
      secret, and the letters it excludes do not. */
  lemma HintsTellTruth(m: Matcher, secret: Word, guess: Word)
    requires Valid(m)
    ensures Gained(m, Guess(Game(secret), guess), guess, 0) <= Letters(secret)
    ensures Banned(Guess(Game(secret), guess), guess, 0) !! Letters(secret)
  {
  }

  /** Folding the hints the secret gives for `guess` keeps the store sound;
      in particular the updated store still accepts the secret. */
  lemma UpdateKeepsSecret(m: Matcher, secret: Word, guess: Word)
    requires Sound(m, secret)
    ensures var r := UpdatePattern(m, Guess(Game(secret), guess), guess);
            r.Ok? ==> Sound(r.value, secret) && Validate(r.value, secret)
  {
    var r := UpdatePattern(m, Guess(Game(secret), guess), guess);
    if r.Ok? {
      SoundAcceptsSecret(m, secret);
      UpdateKeepsSlots(m, secret, guess);
      UpdateKeepsLetters(m, secret, guess);
      SoundAcceptsSecret(r.value, secret);
    }
  }

  /** Without assuming the store sound: a store that accepts the secret
      still accepts it after folding the secret's hints for any guess. */
  lemma UpdateKeepsAcceptance(m: Matcher, secret: Word, guess: Word)
    requires Valid(m) && Validate(m, secret)
    ensures var r := UpdatePattern(m, Guess(Game(secret), guess), guess);
            r.Ok? ==> Validate(r.value, secret)
  {
    var r := UpdatePattern(m, Guess(Game(secret), guess), guess);
    if r.Ok? {
      UpdateKeepsSlots(m, secret, guess);
      UpdateKeepsExclusion(m, secret, guess);
      forall i | 0 <= i < 5
        ensures secret[i] !in Excluded(r.value)
      {
        assert secret[i] in Letters(secret);
      }
    }
  }

  /** Folding the secret's hints into a store that accepts the secret
      excludes none of the secret's letters. */
  lemma UpdateKeepsExclusion(m: Matcher, secret: Word, guess: Word)
    requires Valid(m) && Validate(m, secret)
    requires UpdatePattern(m, Guess(Game(secret), guess), guess).Ok?
    ensures Excluded(UpdatePattern(m, Guess(Game(secret), guess), guess).value) !! Letters(secret)
  {
    UpdatePatternTable(m, Guess(Game(secret), guess), guess);
    HintsTellTruth(m, secret, guess);
    forall c | c in Letters(secret)
      ensures c !in Excluded(m)
    {
      var k :| 0 <= k < 5 && secret[k] == c;
    }
  }

  /** Folding the secret's hints pins positions only to the secret's letters. */
  lemma UpdateKeepsSlots(m: Matcher, secret: Word, guess: Word)
    requires Valid(m) && Validate(m, secret)
    requires UpdatePattern(m, Guess(Game(secret), guess), guess).Ok?
    ensures var n := UpdatePattern(m, Guess(Game(secret), guess), guess).value;
            forall i :: 0 <= i < 5 && n.slots[i].Known? ==> n.slots[i].letter == secret[i]
  {
    UpdatePatternTable(m, Guess(Game(secret), guess), guess);
  }

  /** Folding the secret's hints requires only letters of the secret and
      excludes only letters it lacks. */
  lemma UpdateKeepsLetters(m: Matcher, secret: Word, guess: Word)
    requires Sound(m, secret)
    requires UpdatePattern(m, Guess(Game(secret), guess), guess).Ok?
    ensures var n := UpdatePattern(m, Guess(Game(secret), guess), guess).value;
            Required(n) <= Letters(secret) && Excluded(n) !! Letters(secret)
  {
    UpdatePatternTable(m, Guess(Game(secret), guess), guess);
    HintsTellTruth(m, secret, guess);
  }

  /** After a round, a position the secret confirmed rejects every other letter. */
  lemma CorrectHintPinsLetter(m: Matcher, secret: Word, guess: Word, i: nat, w: Word)
    requires Sound(m, secret) && i < 5
    requires Guess(Game(secret), guess)[i] == Correct
    requires UpdatePattern(m, Guess(Game(secret), guess), guess).Ok?
    requires w[i] != guess[i]
    ensures !Validate(UpdatePattern(m, Guess(Game(secret), guess), guess).value, w)
  {
    UpdatePatternTable(m, Guess(Game(secret), guess), guess);
  }

  /** With room for the secret's letters and the rest of the alphabet, folding
      the secret's hints for a lower-case guess never overflows a buffer. */
  lemma UpdateNeverOverflows(m: Matcher, secret: Word, guess: Word)
    requires Sound(m, secret) && HasRoom(m, secret) && IsLowercase(guess)
    ensures var r := UpdatePattern(m, Guess(Game(secret), guess), guess);
            r.Ok? && HasRoom(r.value, secret)
  {
    var hint := Guess(Game(secret), guess);
    UpdatePatternTable(m, hint, guess);
    var required := Required(m) + Gained(m, hint, guess, 0);
    var excluded := Excluded(m) + Banned(hint, guess, 0);
    assert required <= Letters(secret);
    SubsetSize(required, Letters(secret));
    assert excluded <= Alphabet - Letters(secret);
    SubsetSize(excluded, Alphabet - Letters(secret));
  }

  /** Hints about `secret` never overflow a required buffer that can hold
      the secret's distinct letters, so the push into it never aborts,
      whatever room the excluded buffer has. */
  lemma RequiredNeverOverflows(m: Matcher, secret: Word, guess: Word)
    requires Sound(m, secret) && |Letters(secret)| <= m.required.capacity
    ensures UpdatePattern(m, Guess(Game(secret), guess), guess) != Panicked(RequiredFull)
    ensures UpdatePattern(m, Guess(Game(secret), guess), guess) != Panicked(NoCandidate)
  {
    var hint := Guess(Game(secret), guess);
    UpdateFromPanicCause(m, hint, guess, 0);
    assert Gained(m, hint, guess, 0) <= Letters(secret);
    SubsetSize(Required(m) + Gained(m, hint, guess, 0), Letters(secret));
  }

  // ---------------------------------------------------------------------------
  // Filtering the candidate list
  // ---------------------------------------------------------------------------

  /** A non-empty sequence counts its head once more than its tail. */
  lemma MultisetOfCons<T>(s: seq<T>)
    requires |s| > 0
    ensures multiset(s) == multiset([s[0]]) + multiset(s[1..])
  {
    assert s == [s[0]] + s[1..];
  }

  /** The candidates that survive a round: every word other than the guess
      that the store still accepts, in their original order. */
  function Retain(list: seq<Word>, guess: Word, m: Matcher): (r: seq<Word>)
    requires Valid(m)
    ensures IsSubsequence(r, list)
    ensures forall w :: w in r <==> w in list && w != guess && Validate(m, w)
    ensures |r| <= |list|
    ensures guess in list ==> |r| < |list|
    ensures forall w :: multiset(r)[w] == (if w != guess && Validate(m, w) then multiset(list)[w] else 0)
  {
    if list == [] then []
    else
      var rest := Retain(list[1..], guess, m);
      MultisetOfCons(list);
      if list[0] != guess && Validate(m, list[0]) then
        MultisetOfCons([list[0]] + rest);
        [list[0]] + rest
      else
        rest
  }

  // ---------------------------------------------------------------------------
  // Rounds and the solve loop
  // ---------------------------------------------------------------------------

  /** When every word passes and the guess is not among them, the filter
      keeps the list as it is. */
  lemma {:induction false} RetainKeepsAll(list: seq<Word>, guess: Word, m: Matcher)
    requires Valid(m) && guess !in list
    requires forall k :: 0 <= k < |list| ==> Validate(m, list[k])
    ensures Retain(list, guess, m) == list
  {
    if list != [] {
      RetainKeepsAll(list[1..], guess, m);
    }
  }

  /** When the guess heads the list, occurs nowhere else and every other word
      passes, the filter drops exactly the head. */
  lemma RetainDropsHead(list: seq<Word>, m: Matcher)
    requires Valid(m) && |list| > 0 && list[0] !in list[1..]
    requires forall k :: 1 <= k < |list| ==> Validate(m, list[k])
    ensures Retain(list, list[0], m) == list[1..]
  {
    RetainKeepsAll(list[1..], list[0], m);
  }

  /** The solver between rounds: the word about to be guessed, the store, and
      the remaining candidates. */
  datatype State = State(guess: Word, matcher: Matcher, candidates: seq<Word>)

  /** How a round ends: the guess won, play continues, or the program aborted. */
  datatype Step = Solved | Continue(next: State) | Crashed(cause: Panic)

  /** What `solve` returns: the last guess and the number of attempts. */
  datatype Answer = Answer(word: Word, attempts: nat)

  /** The state before round 1: the opening guess, an empty store whose
      excluded buffer has the given capacity, the whole dictionary. */
  function Start(dictionary: seq<Word>, excludedCapacity: nat): (s: State)
    ensures Valid(s.matcher) && s.matcher.excluded.capacity == excludedCapacity
    ensures s.matcher == New(excludedCapacity)
    ensures s.guess == Opening && s.candidates == dictionary
  {
    State(Opening, New(excludedCapacity), dictionary)
  }

  /** One round: score the guess, fold the hints into the store, filter the
      candidates and take the first survivor as the next guess. */
  function Round(game: Game, s: State): (step: Step)
    requires Valid(s.matcher)
    ensures step.Solved? <==> s.guess == game.word
    ensures step.Continue? ==> Valid(step.next.matcher)
    ensures step.Continue? ==> step.next.matcher.required.capacity == s.matcher.required.capacity
    ensures step.Continue? ==> step.next.matcher.excluded.capacity == s.matcher.excluded.capacity
    ensures step.Continue? ==> IsSubsequence(step.next.candidates, s.candidates)
    ensures step.Continue? ==> s.guess !in step.next.candidates
    ensures step.Continue? ==> |step.next.candidates| > 0 && step.next.guess == step.next.candidates[0]
    ensures step.Continue? ==> forall w :: w in step.next.candidates ==> Validate(step.next.matcher, w)
    ensures step.Continue? && s.guess in s.candidates ==> |step.next.candidates| < |s.candidates|
    ensures step.Continue? ==>
              && UpdatePattern(s.matcher, Guess(game, s.guess), s.guess) == Ok(step.next.matcher)
              && step.next.candidates == Retain(s.candidates, s.guess, step.next.matcher)
    ensures var u := UpdatePattern(s.matcher, Guess(game, s.guess), s.guess);
            s.guess != game.word && u.Panicked? ==> step == Crashed(u.cause)
    ensures var u := UpdatePattern(s.matcher, Guess(game, s.guess), s.guess);
            step == Crashed(NoCandidate) <==>
              s.guess != game.word && u.Ok? && Retain(s.candidates, s.guess, u.value) == []
  {
    var hint := Guess(game, s.guess);
    SolvedIffHidden(game, s.guess);
    UpdateFromPanicCause(s.matcher, hint, s.guess, 0);
    if IsSolved(hint) then Solved
    else
      match UpdatePattern(s.matcher, hint, s.guess)
      case Panicked(cause) => Crashed(cause)
      case Ok(m) =>
        var list := Retain(s.candidates, s.guess, m);
        if list == [] then Crashed(NoCandidate) else Continue(State(list[0], m, list))
  }

  /** A round keeps the store sound; given room in the buffers and the
      secret among the candidates, it never aborts and keeps the secret. */
  lemma RoundKeepsSecret(game: Game, s: State)
    requires Sound(s.matcher, game.word)
    ensures Round(game, s).Continue? ==> Sound(Round(game, s).next.matcher, game.word)
    ensures HasRoom(s.matcher, game.word) && IsLowercase(s.guess) && game.word in s.candidates ==>
              || Round(game, s).Solved?
              || (&& Round(game, s).Continue?
                  && game.word in Round(game, s).next.candidates
                  && HasRoom(Round(game, s).next.matcher, game.word))
  {
    UpdateKeepsSecret(s.matcher, game.word, s.guess);
    if HasRoom(s.matcher, game.word) && IsLowercase(s.guess) {
      UpdateNeverOverflows(s.matcher, game.word, s.guess);
    }
  }

  /** A round never overflows the required buffer, and while the secret is
      a candidate it never runs out of candidates: only the excluded buffer
      can make a round abort. */
  lemma RoundOnlyOverflowsExcluded(game: Game, s: State)
    requires Sound(s.matcher, game.word) && |Letters(game.word)| <= s.matcher.required.capacity
    ensures Round(game, s) != Crashed(RequiredFull)
    ensures game.word in s.candidates ==> Round(game, s) != Crashed(NoCandidate)
    ensures game.word in s.candidates && Round(game, s).Continue? ==> game.word in Round(game, s).next.candidates
    ensures Round(game, s).Continue? ==> Sound(Round(game, s).next.matcher, game.word)
  {
    UpdateKeepsSecret(s.matcher, game.word, s.guess);
    RequiredNeverOverflows(s.matcher, game.word, s.guess);
  }

  /** The outcome of playing at most `n` rounds from `s`: `Continue` with the
      state after the `n`-th round, or how play ended before that. */
  function Advance(game: Game, s: State, n: nat): (step: Step)
    requires Valid(s.matcher)
    ensures step.Continue? ==> Valid(step.next.matcher)
    ensures step.Continue? ==> step.next.matcher.required.capacity == s.matcher.required.capacity
    ensures step.Continue? ==> step.next.matcher.excluded.capacity == s.matcher.excluded.capacity
    decreases n
  {
    if n == 0 then Continue(s)
    else
      match Advance(game, s, n - 1)
      case Continue(t) => Round(game, t)
      case done => done
  }

  /** A round after play has stopped changes nothing. The previous count
      `p` is a parameter so that callers and the unfolded `Advance` name the
      same term `n - 1`, which keeps the proof small. */
  lemma AdvancePastStop(game: Game, s: State, p: nat, n: nat)
    requires Valid(s.matcher) && n > 0 && p == n - 1
    requires !Advance(game, s, p).Continue?
    ensures Advance(game, s, n) == Advance(game, s, p)
  {
  }

  /** Once play has stopped, by a win or an abort, further rounds change nothing. */
  lemma {:induction false} AdvanceStops(game: Game, s: State, m: nat, n: nat)
    requires Valid(s.matcher) && m <= n
    requires !Advance(game, s, m).Continue?
    ensures Advance(game, s, n) == Advance(game, s, m)
    decreases n - m
  {
    if m < n {
      var p := n - 1;
      AdvanceStops(game, s, m, p);
      AdvancePastStop(game, s, p, n);
    }
  }

  /** Everything `solve` needs to find the secret: the secret is in a
      lower-case dictionary small enough for the guess budget, and the
      excluded buffer can hold every letter the secret lacks. */
  predicate WellPosed(game: Game, dictionary: seq<Word>, excludedCapacity: nat) {
    && game.word in dictionary
    && (forall w :: w in dictionary ==> IsLowercase(w))
    && |dictionary| <= MaxGuesses - 2
    && |Alphabet - Letters(game.word)| <= excludedCapacity
  }

  /** What a round that continues preserves of the solve loop's invariant. */
  lemma ContinueKeepsInvariant(game: Game, dictionary: seq<Word>, excludedCapacity: nat, s: State, t: State)
    requires Sound(s.matcher, game.word) && IsSubsequence(s.candidates, dictionary)
    requires Round(game, s) == Continue(t)
    requires WellPosed(game, dictionary, excludedCapacity) ==>
               game.word in s.candidates && HasRoom(s.matcher, game.word) && IsLowercase(s.guess)
    requires game.word in dictionary ==> game.word in s.candidates
    ensures Sound(t.matcher, game.word) && IsSubsequence(t.candidates, dictionary)
    ensures WellPosed(game, dictionary, excludedCapacity) ==>
              game.word in t.candidates && HasRoom(t.matcher, game.word) && IsLowercase(t.guess)
    ensures game.word in dictionary ==> game.word in t.candidates
  {
    RoundKeepsSecret(game, s);
    UpdateKeepsSecret(s.matcher, game.word, s.guess);
    SubsequenceTransitive(t.candidates, s.candidates, dictionary);
    SubsequenceBounded(t.candidates, dictionary);
    assert t.guess in t.candidates;
  }

  /** The solve loop's invariant before round `i`, with `s` the state then. */
  predicate LoopInvariant(game: Game, dictionary: seq<Word>, excludedCapacity: nat, s: State, i: nat) {
    && 1 <= i <= MaxGuesses
    && Sound(s.matcher, game.word)
    && Advance(game, Start(dictionary, excludedCapacity), i - 1) == Continue(s)
    && s.matcher.required.capacity == RequiredCapacity
    && s.matcher.excluded.capacity == excludedCapacity
    && IsSubsequence(s.candidates, dictionary)
    && (i == 1 ==> s == Start(dictionary, excludedCapacity))
    && (game.word == Opening ==> i == 1)
    && (i > 1 ==> |s.candidates| > 0 && s.guess == s.candidates[0])
    && (i > 1 ==> |s.candidates| + (i - 2) <= |dictionary|)
    && (WellPosed(game, dictionary, excludedCapacity) ==>
          game.word in s.candidates && HasRoom(s.matcher, game.word) && IsLowercase(s.guess))
    && (game.word in dictionary ==> game.word in s.candidates)
  }

  /** A round that continues keeps the solve loop's invariant, one round on.
      The next count `j` is a parameter so that the loop's `i + 1` and the
      invariant's are the same term, which keeps the proof small. */
  lemma LoopStep(game: Game, dictionary: seq<Word>, excludedCapacity: nat, s: State, i: nat, t: State, j: nat)
    requires LoopInvariant(game, dictionary, excludedCapacity, s, i) && i < MaxGuesses && j == i + 1
    requires Round(game, s) == Continue(t)
    ensures LoopInvariant(game, dictionary, excludedCapacity, t, j)
  {
    if i > 1 {
      SubsequenceBounded(s.candidates, dictionary);
    }
    ContinueKeepsInvariant(game, dictionary, excludedCapacity, s, t);
    SubsequenceBounded(t.candidates, dictionary);
    assert Advance(game, Start(dictionary, excludedCapacity), i) == Continue(t);
  }

  /** A round that stops play ends it: it is the `i`-th round from the
      start, and the outcome after the last round of the loop. */
  lemma LoopExit(game: Game, dictionary: seq<Word>, excludedCapacity: nat, s: State, i: nat)
    requires LoopInvariant(game, dictionary, excludedCapacity, s, i) && i < MaxGuesses
    requires !Round(game, s).Continue?
    ensures Advance(game, Start(dictionary, excludedCapacity), i) == Round(game, s)
    ensures Advance(game, Start(dictionary, excludedCapacity), MaxGuesses - 1) == Round(game, s)
  {
    var start := Start(dictionary, excludedCapacity);
    assert Advance(game, start, i) == Round(game, s);
    AdvanceStops(game, start, i, MaxGuesses - 1);
  }

  /** A loop that runs out of rounds leaves play going, at the state of its
      last guess. */
  lemma LoopDone(game: Game, dictionary: seq<Word>, excludedCapacity: nat, s: State)
    requires LoopInvariant(game, dictionary, excludedCapacity, s, MaxGuesses)
    ensures Advance(game, Start(dictionary, excludedCapacity), MaxGuesses - 1) == Continue(s)
  {
  }

  /** The solve loop: rounds 1 to `MaxGuesses - 1`, each scoring the current
      guess and returning on a win; if none wins, the last guess with
      `MaxGuesses` attempts. The program's excluded buffer has capacity
      `ExcludedCapacity`. */
  method Solve(game: Game, dictionary: seq<Word>, excludedCapacity: nat) returns (r: Result<Answer>)
    ensures r.Ok? ==> 1 <= r.value.attempts <= MaxGuesses
    ensures r.Ok? && r.value.attempts < MaxGuesses ==> r.value.word == game.word
    ensures game.word == Opening ==> r == Ok(Answer(Opening, 1))
    ensures WellPosed(game, dictionary, excludedCapacity) ==>
              r.Ok? && r.value.word == game.word && r.value.attempts <= |dictionary| + 1
    ensures var last := Advance(game, Start(dictionary, excludedCapacity), MaxGuesses - 1);
            && (r.Panicked? <==> last.Crashed?)
            && (r.Panicked? ==> r.cause == last.cause)
            && (r.Ok? && r.value.attempts < MaxGuesses <==> last.Solved?)
    ensures var last := Advance(game, Start(dictionary, excludedCapacity), MaxGuesses - 1);
            r.Ok? && r.value.attempts == MaxGuesses ==> last.Continue? && r.value.word == last.next.guess
    ensures r.Ok? && r.value.attempts < MaxGuesses ==>
              var before := Advance(game, Start(dictionary, excludedCapacity), r.value.attempts - 1);
              && before.Continue? && before.next.guess == r.value.word
              && Advance(game, Start(dictionary, excludedCapacity), r.value.attempts) == Solved
    ensures r != Panicked(RequiredFull)
    ensures game.word in dictionary ==> r != Panicked(NoCandidate)
  {
    var s := Start(dictionary, excludedCapacity);
    var i := 1;
    SubsequenceReflexive(dictionary);
    assert IsLowercase(Opening);
    LettersCount(game.word);
    while i < MaxGuesses
      invariant LoopInvariant(game, dictionary, excludedCapacity, s, i)
    {
      var step := Round(game, s);
      match step {
        case Solved =>
          LoopExit(game, dictionary, excludedCapacity, s, i);
          return Ok(Answer(s.guess, i));
        case Crashed(cause) =>
          RoundKeepsSecret(game, s);
          RoundOnlyOverflowsExcluded(game, s);
          LoopExit(game, dictionary, excludedCapacity, s, i);
          return Panicked(cause);
        case Continue(t) =>
          var j := i + 1;
          LoopStep(game, dictionary, excludedCapacity, s, i, t, j);
          s, i := t, j;
      }
    }
    LoopDone(game, dictionary, excludedCapacity, s);
    return Ok(Answer(s.guess, MaxGuesses));
  }
}

=== FILE: subsequences.dfy ===
/** Order-preserving subsequences: what `Vec::retain` leaves of a list. */
module Subsequences {

  /** `a` is `b` with some elements deleted and the rest kept in order. */
  predicate IsSubsequence<T(==)>(a: seq<T>, b: seq<T>)
    decreases |b|
  {
    || |a| == 0
    || (&& |b| > 0
        && ((a[0] == b[0] && IsSubsequence(a[1..], b[1..])) || IsSubsequence(a, b[1..])))
  }

  lemma {:induction false} SubsequenceReflexive<T>(a: seq<T>)
    ensures IsSubsequence(a, a)
    decreases |a|
  {
    if |a| > 0 {
      SubsequenceReflexive(a[1..]);
    }
  }

  /** A subsequence is no longer than the sequence and draws its elements from it. */
  lemma {:induction false} SubsequenceBounded<T>(a: seq<T>, b: seq<T>)
    requires IsSubsequence(a, b)
    ensures |a| <= |b|
    ensures forall x :: x in a ==> x in b
    decreases |b|
  {
    if |a| > 0 {
      if a[0] == b[0] && IsSubsequence(a[1..], b[1..]) {
        SubsequenceBounded(a[1..], b[1..]);
        assert a == [a[0]] + a[1..];
      } else {
        SubsequenceBounded(a, b[1..]);
      }
    }
  }

  lemma {:induction false} SubsequenceTransitive<T>(a: seq<T>, b: seq<T>, c: seq<T>)
    requires IsSubsequence(a, b) && IsSubsequence(b, c)
    ensures IsSubsequence(a, c)
    decreases |c|
  {
    if |a| > 0 {
      if IsSubsequence(b, c[1..]) {
        SubsequenceTransitive(a, b, c[1..]);
      } else {
        assert b[0] == c[0] && IsSubsequence(b[1..], c[1..]);
        if a[0] == b[0] && IsSubsequence(a[1..], b[1..]) {
          SubsequenceTransitive(a[1..], b[1..], c[1..]);
        } else {
          SubsequenceTransitive(a, b[1..], c[1..]);
        }
      }
    }
  }
}

=== FILE: words.dfy ===
/** Five-letter words, their letters and the lower-case alphabet. */
module Words {

  /** A dictionary entry or a guess: exactly five characters. */
  type Word = w: seq<char> | |w| == 5 witness "crane"

  /** The 26 lower-case ASCII letters the dictionary is written in, in order. */
  const AlphabetText: string := "abcdefghijklmnopqrstuvwxyz"

  const Alphabet: set<char> := Letters(AlphabetText)

  predicate IsLowercase(s: seq<char>) {
    forall i :: 0 <= i < |s| ==> s[i] in Alphabet
  }

  /** The distinct letters occurring in `s`. */
  function Letters(s: seq<char>): set<char> {
    set c | c in s
  }

  /** No letter occurs twice in `s`. */
  predicate Distinct(s: seq<char>) {
    forall i, j :: 0 <= i < j < |s| ==> s[i] != s[j]
  }

  /** Every letter of `s` comes strictly before the next one. */
  predicate Ascending(s: seq<char>) {
    forall i :: 0 < i < |s| ==> s[i - 1] < s[i]
  }

  lemma AscendingIsDistinct(s: seq<char>)
    requires Ascending(s)
    ensures Distinct(s)
  {
    forall i, j | 0 <= i < j < |s|
      ensures s[i] < s[j]
    {
      var k := i + 1;
      while k < j
        invariant i < k <= j
        invariant s[i] < s[k]
      {
        k := k + 1;
      }
    }
  }

  lemma AlphabetSize()
    ensures |Alphabet| == 26
  {
    assert Ascending(AlphabetText);
    AscendingIsDistinct(AlphabetText);
    LettersCount(AlphabetText);
  }

  /** A sequence has at most as many distinct letters as elements, and
      exactly as many when no letter repeats. */
  lemma {:induction false} LettersCount(s: seq<char>)
    ensures |Letters(s)| <= |s|
    ensures Distinct(s) ==> |Letters(s)| == |s|
  {
    if |s| > 0 {
      var init := s[..|s| - 1];
      LettersCount(init);
      assert Letters(s) == Letters(init) + {s[|s| - 1]};
      if Distinct(s) {
        assert Distinct(init);
        assert s[|s| - 1] !in Letters(init);
      }
    }
  }

  /** A subset is no larger than its superset. */
  lemma SubsetSize<T>(a: set<T>, b: set<T>)
    requires a <= b
    ensures |a| <= |b|
  {
    assert b == a + (b - a);
  }
}
